=== FILE: README.md ===
# Transaction classification service — Dafny model

This project models the logic of a small bookkeeping service that ingests a
bank-account CSV export together with a merchant-keyword rule book. It tags
each transaction with a company and an expense/income category, stores the
result in a `transactions` table, and serves it back by company and as a
list of unclassified rows.

The model has eight modules:

- `Basics` holds the option/result types and `Includes`, JavaScript's
  case-sensitive `String.prototype.includes`. `Includes` is proved equal to
  the positional definition of a substring.
- `Seqs` holds `Filter`, the order-preserving `filter` / SQL `WHERE`, with its
  multiset characterisation.
- `Records` holds the parsed and classified record types and the lenient
  numeric defaulting of `parseCSV`.
- `Matcher` holds the rule matcher of `classifyTransactions`. `Classify` is a
  recursive function, and `ClassifyScan` is the nested loop with its two
  `break`s. Both are proved to return the first matching (company, category)
  pair in rule-book order. The specification is `IsFirstMatch`.
- `Pipeline` holds `processTransactions` as a state machine over a
  `Store` (a sequence of rows): clear, parse, classify, insert inside one
  database transaction, count.
- `Queries` holds `getRecordsByCompany` and `getUnclassifiedRecords`. Each is a
  filter followed by a sort by date, latest first.
- `Money` holds the two-decimal rendering of `toFixed(2)` on amounts in
  integer hundredths, with a parser proved to invert it.
- `Routes` holds the upload filter, the request checks, the statistics of
  `GET /records`, and the three handlers as pure functions.

The database, the CSV reader and `JSON.parse` are parameters. A
`POST /process` request carries the rule book as an option: `None` when
`JSON.parse` threw, which is answered with 400 before any run. A run
(`Pipeline.ProcessRun`) receives:

- the parsed CSV rows, or `None` when the CSV parser emitted `error`;
- the parsed rule book;
- a `DbFaults` value saying whether the `DELETE` fails and where, if anywhere,
  the insert transaction fails.

Behaviour worth knowing, which the model follows as the code has it:

- **The replace is not atomic.** The table is cleared by a separate statement
  that is committed on its own (`classificationService.js:14`). This happens
  before the CSV is parsed and before the insert transaction begins. So a run
  whose parse or insert fails leaves the table empty, not restored. The
  rollback at line 149 only undoes the partial batch. `Pipeline.ProcessRun`
  and `Pipeline.FailedRunLosesSnapshot` state this.
- **The unclassified query tests two conditions.** It selects
  `is_classified = false OR company_id IS NULL`, and never looks at
  `category_id`. The two conditions coincide when every company of the rule
  book has an id (`Queries.ListedIffFlagUnset`). A rule without `company_id`
  yields rows flagged classified whose company id is NULL. Those rows are
  listed as unclassified (`Matcher.MissingCompanyIdStillClassifies`,
  `Queries.ClassifiedRowWithoutCompanyIsListed`). A category without
  `category_id` yields a classified row whose category id is NULL, and the
  unclassified query does not list it (`Queries.MissingCategoryIdNotListed`).
- **Query order is not fixed for equal timestamps.** `ORDER BY
  transaction_date DESC` does not order rows with equal timestamps. So the
  queries promise a permutation of the selected rows whose dates do not
  increase, not a stable order.
- **No header validation and no rule-book shape check.** The CSV header is
  not validated, and the rule book's shape is not checked. The only parse
  failure is an `error` event of the CSV parser. A rules file that is not JSON makes
  `JSON.parse` throw, which is answered with 400 before the table is touched.
  A rules file that is JSON but malformed passes that check. A missing
  `companies` array makes the classifier throw a `TypeError` on the first
  record (`classificationService.js:79`). A company without an iterable
  `categories` or a category without a `keywords` array throws only for the
  first record whose scan reaches that entry (`classificationService.js:80-84`):
  the `break`s at lines 90 and 94 skip every entry after the first match, so
  if every record matches earlier, the run succeeds. A throw happens after the
  `DELETE`, so the answer is 500 and the table is left empty. The model's rule book always has the three levels (see
  "Left out").

## Model

| member | source | states |
|---|---|---|
| Basics.IncludesIffOccurs | src/services/classificationService.js:82-84 | the keyword test holds exactly when the keyword occurs at some position of the description (case-sensitive, no normalisation) |
| Basics.EmptyIncludedEverywhere | src/services/classificationService.js:82-84 | the empty keyword is included in every description |
| Basics.LongerNeverIncluded | src/services/classificationService.js:82-84 | a keyword longer than the description never matches it |
| Seqs.Filter | src/services/classificationService.js:30-31 | a filter keeps exactly the elements satisfying the condition, each as often as in the input, and never grows the sequence |
| Seqs.FilterPartition | src/services/classificationService.js:29-31 | filtering by a condition and by its negation splits the sequence: the two lengths add up to the whole |
| Seqs.FilterCongruent | src/services/classificationService.js:207 | two conditions that agree on every row select the same rows in the same order |
| Seqs.FilterPermutation | src/routes/accounting.js:128-129 | counts by a condition do not depend on the order of the records |
| Records.ParseRow | src/services/classificationService.js:50-57 | an unparseable deposit or withdrawal becomes 0, a parsed one is kept, the balance is kept as parsed (no default), the other columns are copied |
| Records.ParseRows | src/services/classificationService.js:49-58 | every CSV row gives exactly one transaction, in file order, each parsed on its own |
| Records.BalanceHasNoDefault | src/services/classificationService.js:53-55 | with all three numbers unparseable, the amounts are 0 while the balance stays unparseable |
| Matcher.FirstCategory | src/services/classificationService.js:80-91 | the inner scan returns the first category from the given index whose keywords match, and no earlier one matches; none means none matches |
| Matcher.ScanFrom | src/services/classificationService.js:79-95 | the outer scan returns a matching pair from the given company on, with no matching pair before it in book order; no match means no pair from there on matches |
| Matcher.Classify | src/services/classificationService.js:79-95 | the result is the first matching (company, category) pair in book order, or no match when no keyword of any category matches |
| Matcher.ClassifyScan | src/services/classificationService.js:74-95 | the nested loops with both breaks compute the first matching pair in book order, or no match |
| Matcher.FirstMatchUnique | src/services/classificationService.js:79-95 | the first match is unique, so classification is deterministic |
| Matcher.EmptyKeywordsNeverMatch | src/services/classificationService.js:82-84 | a category with an empty keyword list is never the answer |
| Matcher.EmptyKeywordMatchesAll | src/services/classificationService.js:82-90 | a category holding the empty keyword makes every description classified, at that pair or an earlier one |
| Matcher.ClassifyRecord | src/services/classificationService.js:73-102 | the record is copied unchanged; it is flagged classified iff some pair matches; unmatched records get two absent ids; matched ones get the ids of the first matching pair |
| Matcher.ClassifiedIffIdsSet | src/services/classificationService.js:74-101 | when every rule carries its ids, a record is flagged classified iff both ids are set |
| Matcher.MissingCompanyIdStillClassifies | src/services/classificationService.js:86-89 | a company without an id still classifies a record, whose company id is then absent |
| Matcher.CoffeeExample | src/services/classificationService.js:79-102 | rule E1/C1 with keyword COFFEE classifies "COFFEE SHOP DOWNTOWN" as (E1, C1) |
| Pipeline.ClassifyAll | src/services/classificationService.js:70-108 | the batch keeps its length and order, every original field of every record is unchanged, each record is classified independently |
| Pipeline.Summarize | src/services/classificationService.js:27-32 | classified plus unclassified equals the number of saved rows, classified counts the flagged rows |
| Pipeline.Clear | src/services/classificationService.js:159-162 | the delete either fails or leaves the table empty |
| Pipeline.InsertLoop | src/services/classificationService.js:126-150 | the insert loop commits all rows on top of the table and returns them, or rolls back to the table as it was; it commits iff no insert and not the commit fails |
| Pipeline.SaveTransactions | src/services/classificationService.js:113-154 | on commit the table gains exactly the batch and the batch is returned; on any failure, including a failed connection, the table is unchanged |
| Pipeline.ProcessRun | src/services/classificationService.js:9-38 | a failed delete changes nothing; the run succeeds iff delete, parse and insert transaction succeed; success stores exactly the classified batch with consistent counts; every later failure leaves the table empty |
| Pipeline.FailedRunLosesSnapshot | src/services/classificationService.js:13-23 | a parse or insert failure after the delete loses a non-empty prior table |
| Pipeline.UnchangedOnlyWhenClearFails | src/services/classificationService.js:13-23 | among failed runs over a non-empty table, the table survives iff the delete itself failed |
| Pipeline.RunIgnoresPriorStore | src/services/classificationService.js:13-32 | once the delete succeeds, the outcome does not depend on the prior table, so repeating a run repeats its counts |
| Pipeline.HeaderOnlyRun | src/services/classificationService.js:14-32 | a CSV without data rows empties the table and reports zero processed |
| Pipeline.RunKeepsStoreConsistent | src/services/classificationService.js:97-102 | with every rule id present, a run keeps every row's flag equal to both ids being set |
| Queries.InsertByDate | src/services/classificationService.js:185 | inserting into a date-descending sequence keeps it date-descending and adds exactly that row |
| Queries.SortByDateDesc | src/services/classificationService.js:185 | the sort returns a permutation of its input with non-increasing dates |
| Queries.RecordsByCompany | src/services/classificationService.js:167-190 | the query returns exactly the stored rows with that company id, each as often as stored, latest first |
| Queries.UnclassifiedRecords | src/services/classificationService.js:195-213 | the query returns exactly the stored rows that are unflagged or have no company id, latest first |
| Queries.UnclassifiedMeansFlagUnset | src/services/classificationService.js:207 | in a consistent table the unclassified query returns exactly the unflagged rows |
| Queries.ClassifiedRowWithoutCompanyIsListed | src/services/classificationService.js:207 | a flagged row with no company id is still listed as unclassified |
| Queries.ListedIffFlagUnset | src/services/classificationService.js:207 | when every company has an id, a classified record is listed as unclassified exactly when its flag is unset, whatever its category ids |
| Queries.MissingCategoryIdNotListed | src/services/classificationService.js:86-89 | a category without an id gives a flagged row with a NULL category id that the unclassified query does not list |
| Queries.RoundTripByCompany | src/services/classificationService.js:184-185 | after a successful run, a company query returns a date-descending permutation of the batch's rows with that company id |
| Queries.MatchedRecordOfCompany | src/services/classificationService.js:86-89 | a record given a company id is flagged, and its first matching pair belongs to a company with that id |
| Queries.CompanyRowsWereMatched | src/services/classificationService.js:184 | every row a company query returns from a classified batch was flagged, and its first matching pair belongs to a company with that id |
| Money.NatToDecimal | src/routes/accounting.js:140 | the integer part is rendered as a non-empty string of decimal digits, which starts with 0 only for the number 0 and has one digit exactly below 10 |
| Money.DecimalCanonical | src/routes/accounting.js:140 | every digit string without a leading zero is the rendering of the number it denotes |
| Money.DecimalRoundTrip | src/routes/accounting.js:140 | reading the rendered digits back gives the number |
| Money.FormatUnsigned | src/routes/accounting.js:140 | an unsigned amount renders in the canonical form of toFixed(2): digits, a point and exactly two digits, with no leading zero unless the units are 0; "0.00" exactly for 0 |
| Money.FormatCents | src/routes/accounting.js:140 | an amount in whole hundredths renders in the canonical signed form of toFixed(2) (no leading zero, and for whole hundredths never "-0.00"), with a leading minus iff it is negative |
| Money.UnsignedCanonical | src/routes/accounting.js:140 | the canonical unsigned form is unique: every canonical string parses, and formatting its value gives the same string |
| Money.CentsCanonical | src/routes/accounting.js:140 | the canonical signed form is unique: every canonical string parses, and formatting its value gives the same string, so formatting is a bijection onto canonical strings |
| Money.NonCanonicalExamples | src/routes/accounting.js:140 | for amounts in whole hundredths, "0150.00" and "-0.00" are not toFixed(2) forms, while "0.05" and "-150.00" are |
| Money.TwoDigitValue | src/routes/accounting.js:140 | the two decimal digits denote the hundredths |
| Money.UnsignedRoundTrip | src/routes/accounting.js:140 | parsing an unsigned rendering gives the amount back |
| Money.FormatParseRoundTrip | src/routes/accounting.js:140 | the two-decimal rendering loses nothing: parsing it gives the amount back |
| Money.FormatExample | src/routes/accounting.js:140 | 150 units render as "150.00" |
| Routes.AcceptUpload | src/routes/accounting.js:26-34 | csvFile is accepted iff its type is text/csv or its name ends in .csv; rulesFile iff application/json or .json; any other field is refused |
| Routes.UploadFieldDecides | src/routes/accounting.js:27-32 | a .json file under csvFile, a .csv file under rulesFile and a .csv file under another field are all refused |
| Routes.HandleProcess | src/routes/accounting.js:41-102 | a refused upload, a missing file or an unparseable rules file each answer before the service runs and leave the table unchanged; otherwise the answer and the table are those of the run |
| Routes.AmountAppend | src/routes/accounting.js:124-126 | the total over two record lists is the sum of their totals |
| Routes.AmountRemove | src/routes/accounting.js:124-126 | the total is one record's amount plus the total of the others |
| Routes.MultisetRemove | src/routes/accounting.js:124-126 | removing one record removes exactly that record from the multiset |
| Routes.AmountPermutation | src/routes/accounting.js:124-126 | the total does not depend on the order of the records |
| Routes.TotalAmount | src/routes/accounting.js:124-126 | the running sum over the records equals the sum of deposit plus withdrawal |
| Routes.ComputeStatistics | src/routes/accounting.js:124-140 | totalRecords is the number of records, classified plus unclassified equals it, classified counts the flagged records, and totalAmount is in the canonical toFixed(2) form and reads back as the sum of deposit plus withdrawal, which together fix the string |
| Routes.HandleRecords | src/routes/accounting.js:108-151 | an absent or empty companyId is refused with 400 before the query runs; a failing query answers 500; otherwise the records are that company's stored rows latest first, and the statistics are exactly `ComputeStatistics` of those records |
| Routes.StatisticsOfCompany | src/routes/accounting.js:121-140 | the statistics are exactly those computed from the company's stored rows, whatever order the query returns them in |
| Routes.StatisticsExample | src/routes/accounting.js:124-140 | a deposit of 100.00 and a withdrawal of 50.00 total "150.00" over two records |
| Routes.HandleUnclassified | src/routes/accounting.js:159-180 | a failing query answers 500 and only then; otherwise the records are exactly the stored rows the unclassified query selects, each as often as stored, latest first, and count is their number |

## Left out

- CSV reading (`fs.createReadStream` and the CSV library) is left out because it is I/O through a library. A run receives the parsed rows, or `None` when the CSV parser emits `error` (`classificationService.js:63`). An error of the file stream itself is not forwarded by `.pipe` and is not handled by the service, so it is not a `ParseFailed` outcome; it is left out.
- A missing CSV column is left out. A missing 적요 (description) column makes `description` undefined; `includes` then throws inside the classifier, but only when some category has a keyword to test (`classificationService.js:82-83`); with no keywords the run succeeds and stores a NULL description. Other missing columns give an invalid date, zero amounts, a NaN balance or a NULL branch. The model's descriptions are always strings and its rows always have every column.
- `new Date(...)` is left out. Timestamps are an abstract ordered integer, so an invalid date and how the database treats it are not modelled.
- `parseFloat` is abstracted to `Option<int>` (`None` for `NaN`). Amounts are integer hundredths, so floating-point parsing, rounding and the exponent form `toFixed` uses for very large numbers are not modelled. In particular a floating-point total between -0.005 and 0 (for example -0.1, -0.2 and 0.3 summed) renders as "-0.00", which the model's exact total never does.
- Routes.ComputeStatistics: the `|| 0` on each stored amount is not modelled separately. Stored amounts are never NULL, because parsing already defaulted them.
- Pipeline.ProcessRun: a rule book that is valid JSON but malformed is not modelled. A missing `companies` array makes the classifier throw on the first record. A company without an iterable `categories`, or a category without a `keywords` array, throws for the first record whose scan reaches it; records matched earlier never reach it. A throw is a further failure after the `DELETE`: the answer is 500 and the table is left empty. The model's rule book always has the three levels.
- Basics.Includes: keywords are strings. In JavaScript a non-string keyword is converted by `includes` to its string form and matched as that: `5000` matches "… 5000 …", and `[]` becomes "" and matches every description. The model cannot state such a keyword directly; its string form must be written in the rule book.
- Basics.Includes: a Dafny string is a sequence of Unicode scalar values, while JavaScript's `includes` compares UTF-16 code units. A keyword holding a lone surrogate (JSON `"\ud83d"`) matches a description containing an emoji in JavaScript. The model cannot express such a keyword.
- Database specifics are left out: the serial `id` column, the `LEFT JOIN`s that add company and category names, the column projection of the two queries, foreign keys and value coercion. A query returns the stored records themselves.
- Routes.HandleProcess: failures of `db.connect`, `BEGIN` and `ROLLBACK` are folded into `SaveFault`. A failure of the temp-file cleanup after a successful run is not modelled; it turns the answer into 500 after the commit.
- The upload middleware's disk storage, generated file names, `maxCount` limits and the `req.files` object for non-multipart requests are left out, because they depend on the clock, randomness and the file system.
- A repeated `companyId` query parameter, which arrives as an array, is left out.
- The HTTP status of a refused upload is left out. It is decided by the application's error handler, which is not part of this model.
- Server wiring, security middleware and logging are left out.
- Concurrency is left out. The service takes no lock around the delete and insert, and the model treats each run as one step.

=== FILE: basics.dfy ===
/** Shared vocabulary of the classification service: optional values,
    results, identifiers, timestamps and the case-sensitive substring test
    that keyword matching is built on (JavaScript's `String.prototype.includes`). */
module Basics {

  /** A value that may be absent: JavaScript's `undefined`/`null`, SQL's NULL,
      or a `parseFloat` that produced `NaN`. */
  datatype Option<+T> = None | Some(value: T) {
    /** The value, or `default` when absent (the `x || 0` idiom on numbers). */
    function GetOr(default: T): T {
      match this
      case Some(v) => v
      case None => default
    }
  }

  /** Either a value or the error that was thrown instead. */
  datatype Result<+T, +E> = Ok(value: T) | Err(error: E)

  /** Identifiers of companies and categories as strings. */
  type Id = string

  /** A transaction timestamp, abstracted to a totally ordered value. */
  type Timestamp = int

  /** `k` occurs in `s` starting at position `i`: the reference meaning of "substring". */
  predicate OccursAt(s: string, k: string, i: int) {
    0 <= i && i + |k| <= |s| && s[i..i + |k|] == k
  }

  /** `s` begins with `k`. */
  predicate StartsWith(s: string, k: string) {
    |k| <= |s| && s[..|k|] == k
  }

  /** `s.includes(k)`: try every start position from left to right. */
  predicate Includes(s: string, k: string)
    decreases |s|
  {
    StartsWith(s, k) || (|s| > 0 && Includes(s[1..], k))
  }

  /** The scanning test agrees with the positional definition of a substring. */
  lemma {:induction false} IncludesIffOccurs(s: string, k: string)
    ensures Includes(s, k) <==> exists i :: OccursAt(s, k, i)
    decreases |s|
  {
    if Includes(s, k) {
      if StartsWith(s, k) {
        assert OccursAt(s, k, 0);
      } else {
        IncludesIffOccurs(s[1..], k);
        var i :| OccursAt(s[1..], k, i);
        assert s[1..][i..i + |k|] == s[i + 1..i + 1 + |k|];
        assert OccursAt(s, k, i + 1);
      }
    }
    if exists i :: OccursAt(s, k, i) {
      var i :| OccursAt(s, k, i);
      if i == 0 {
        assert StartsWith(s, k);
      } else {
        assert s[1..][i - 1..i - 1 + |k|] == s[i..i + |k|];
        assert OccursAt(s[1..], k, i - 1);
        IncludesIffOccurs(s[1..], k);
      }
    }
  }

  /** The empty string is included in every string, as `"abc".includes("")` is true. */
  lemma EmptyIncludedEverywhere(s: string)
    ensures Includes(s, "")
  {
    assert OccursAt(s, "", 0);
    IncludesIffOccurs(s, "");
  }

  /** A keyword longer than the text is never included in it. */
  lemma {:induction false} LongerNeverIncluded(s: string, k: string)
    requires |k| > |s|
    ensures !Includes(s, k)
    decreases |s|
  {
    if |s| > 0 {
      LongerNeverIncluded(s[1..], k);
    }
  }
}

=== FILE: matcher.dfy ===
/** The rule matcher of `classifyTransactions`: an ordered scan over the
    companies of the rule book, then their categories, then their keywords,
    that stops at the first category with a keyword contained in the
    transaction's description. */
module Matcher {
  import opened Basics
  import opened Records

  /** A category of the rule book. Its id is absent when the JSON object has
      no `category_id`. */
  datatype Category = Category(categoryId: Option<Id>, keywords: seq<string>)

  /** A company of the rule book, with its categories in book order. */
  datatype Company = Company(companyId: Option<Id>, categories: seq<Category>)

  /** The parsed rules file: `{ companies: [...] }`. */
  datatype RuleBook = RuleBook(companies: seq<Company>)

  /** Outcome of the scan: the indices of the winning company and category. */
  datatype Match = NoMatch | Hit(company: nat, category: nat)

  /** `category.keywords.some(keyword => description.includes(keyword))`. */
  predicate CategoryMatches(description: string, category: Category) {
    exists j :: 0 <= j < |category.keywords| && Includes(description, category.keywords[j])
  }

  /** Category `k` of company `c` exists and matches the description. */
  predicate PairMatches(description: string, rules: RuleBook, c: int, k: int) {
    && 0 <= c < |rules.companies|
    && 0 <= k < |rules.companies[c].categories|
    && CategoryMatches(description, rules.companies[c].categories[k])
  }

  /** (c1, k1) comes before (c2, k2) in rule-book order. */
  predicate Precedes(c1: int, k1: int, c2: int, k2: int) {
    c1 < c2 || (c1 == c2 && k1 < k2)
  }

  /** The specification of the scan: `m` names the first matching
      (company, category) pair in rule-book order, or no pair matches. */
  ghost predicate IsFirstMatch(description: string, rules: RuleBook, m: Match) {
    match m
    case NoMatch =>
      forall c, k :: !PairMatches(description, rules, c, k)
    case Hit(c, k) =>
      && PairMatches(description, rules, c, k)
      && forall c', k' :: Precedes(c', k', c, k) ==> !PairMatches(description, rules, c', k')
  }

  /** All ids of the rule book are present. */
  predicate WellFormed(rules: RuleBook) {
    forall c :: 0 <= c < |rules.companies| ==>
      && rules.companies[c].companyId.Some?
      && forall k :: 0 <= k < |rules.companies[c].categories| ==> rules.companies[c].categories[k].categoryId.Some?
  }

  /** The inner loop: the first category at or after index `k` that matches. */
  function FirstCategory(description: string, categories: seq<Category>, k: nat): (r: Option<nat>)
    requires k <= |categories|
    ensures r.Some? ==> k <= r.value < |categories| && CategoryMatches(description, categories[r.value])
    ensures r.Some? ==> forall j :: k <= j < r.value ==> !CategoryMatches(description, categories[j])
    ensures r.None? ==> forall j :: k <= j < |categories| ==> !CategoryMatches(description, categories[j])
    decreases |categories| - k
  {
    if k == |categories| then None
    else if CategoryMatches(description, categories[k]) then Some(k)
    else FirstCategory(description, categories, k + 1)
  }

  /** The outer loop: the first matching pair among the companies from index `c` on. */
  function ScanFrom(description: string, rules: RuleBook, c: nat): (m: Match)
    requires c <= |rules.companies|
    ensures m.Hit? ==> c <= m.company && PairMatches(description, rules, m.company, m.category)
    ensures m.Hit? ==> forall c', k' :: c <= c' && Precedes(c', k', m.company, m.category) ==> !PairMatches(description, rules, c', k')
    ensures m.NoMatch? ==> forall c', k' :: c <= c' ==> !PairMatches(description, rules, c', k')
    decreases |rules.companies| - c
  {
    if c == |rules.companies| then NoMatch
    else
      match FirstCategory(description, rules.companies[c].categories, 0)
      case Some(k) => Hit(c, k)
      case None => ScanFrom(description, rules, c + 1)
  }

  /** Classification of one description against the rule book. */
  function Classify(description: string, rules: RuleBook): (m: Match)
    ensures IsFirstMatch(description, rules, m)
  {
    ScanFrom(description, rules, 0)
  }

  /** The nested loops of `classifyTransactions` with their two `break`s. */
  method ClassifyScan(description: string, rules: RuleBook) returns (m: Match)
    ensures IsFirstMatch(description, rules, m)
  {
    m := NoMatch;
    var classified := false;
    var c := 0;
    while c < |rules.companies|
      invariant 0 <= c <= |rules.companies|
      invariant !classified && m == NoMatch
      invariant forall c', k' :: c' < c ==> !PairMatches(description, rules, c', k')
    {
      var categories := rules.companies[c].categories;
      var k := 0;
      while k < |categories|
        invariant 0 <= k <= |categories|
        invariant !classified && m == NoMatch
        invariant forall k' :: k' < k ==> !PairMatches(description, rules, c, k')
      {
        if CategoryMatches(description, categories[k]) {
          m := Hit(c, k);
          classified := true;
          break;
        }
        k := k + 1;
      }
      if classified {
        break;
      }
      c := c + 1;
    }
  }

  /** The scan is deterministic: at most one answer meets the specification. */
  lemma FirstMatchUnique(description: string, rules: RuleBook, m1: Match, m2: Match)
    requires IsFirstMatch(description, rules, m1) && IsFirstMatch(description, rules, m2)
    ensures m1 == m2
  {
  }

  /** A category without keywords never wins, because `some` over an empty list is false. */
  lemma EmptyKeywordsNeverMatch(description: string, rules: RuleBook, c: nat, k: nat)
    requires c < |rules.companies| && k < |rules.companies[c].categories|
    requires rules.companies[c].categories[k].keywords == []
    ensures Classify(description, rules) != Hit(c, k)
  {
  }

  /** An empty-string keyword matches every description, so a category holding
      one wins unless an earlier pair matched first. */
  lemma EmptyKeywordMatchesAll(description: string, rules: RuleBook, c: nat, k: nat)
    requires c < |rules.companies| && k < |rules.companies[c].categories|
    requires "" in rules.companies[c].categories[k].keywords
    ensures Classify(description, rules).Hit?
    ensures !Precedes(c, k, Classify(description, rules).company, Classify(description, rules).category)
  {
    var kws := rules.companies[c].categories[k].keywords;
    var j :| 0 <= j < |kws| && kws[j] == "";
    EmptyIncludedEverywhere(description);
    assert PairMatches(description, rules, c, k);
  }

  /** `classifyTransactions` for one record: the record is copied and decorated
      with the ids of the winning pair, or with two absent ids. */
  function ClassifyRecord(t: Transaction, rules: RuleBook): (r: ClassifiedRecord)
    ensures r.txn == t
    ensures r.isClassified <==> exists c, k :: PairMatches(t.description, rules, c, k)
    ensures !r.isClassified ==> r.companyId.None? && r.categoryId.None?
    ensures r.isClassified ==>
      exists c: nat, k: nat :: (IsFirstMatch(t.description, rules, Hit(c, k))
                      && r.companyId == rules.companies[c].companyId
                      && r.categoryId == rules.companies[c].categories[k].categoryId)
  {
    match Classify(t.description, rules)
    case NoMatch => ClassifiedRecord(t, None, None, false)
    case Hit(c, k) =>
      ClassifiedRecord(t, rules.companies[c].companyId, rules.companies[c].categories[k].categoryId, true)
  }

  /** With every id present in the rule book, a record is classified exactly
      when both of its ids are set. */
  lemma ClassifiedIffIdsSet(t: Transaction, rules: RuleBook)
    requires WellFormed(rules)
    ensures ClassifyRecord(t, rules).isClassified
        <==> ClassifyRecord(t, rules).companyId.Some? && ClassifyRecord(t, rules).categoryId.Some?
  {
  }

  /** Without that, the flag and the ids disagree: a company with no
      `company_id` in the rules file still classifies a record, whose
      company id is then absent. */
  lemma MissingCompanyIdStillClassifies()
    ensures var rules := RuleBook([Company(None, [Category(Some("c1"), ["COFFEE"])])]);
      var r := ClassifyRecord(Transaction(0, "COFFEE", 0, 0, None, ""), rules);
      r.isClassified && r.companyId.None?
  {
    var rules := RuleBook([Company(None, [Category(Some("c1"), ["COFFEE"])])]);
    assert "COFFEE"[..6] == "COFFEE";
    assert Includes("COFFEE", rules.companies[0].categories[0].keywords[0]);
    assert PairMatches("COFFEE", rules, 0, 0);
  }

  /** Worked example: rule `E1`/`C1` with keyword `COFFEE` classifies
      `COFFEE SHOP DOWNTOWN` as `(E1, C1)`. */
  lemma CoffeeExample()
    ensures var rules := RuleBook([Company(Some("E1"), [Category(Some("C1"), ["COFFEE"])])]);
      var r := ClassifyRecord(Transaction(0, "COFFEE SHOP DOWNTOWN", 0, 0, None, ""), rules);
      r.isClassified && r.companyId == Some("E1") && r.categoryId == Some("C1")
  {
    var rules := RuleBook([Company(Some("E1"), [Category(Some("C1"), ["COFFEE"])])]);
    assert "COFFEE SHOP DOWNTOWN"[..6] == "COFFEE";
    assert Includes("COFFEE SHOP DOWNTOWN", rules.companies[0].categories[0].keywords[0]);
    assert PairMatches("COFFEE SHOP DOWNTOWN", rules, 0, 0);
  }
}

=== FILE: money.dfy ===
/** Amounts in integer minor units (hundredths) and their rendering with two
    decimals, the `toFixed(2)` of the records statistics. */
module Money {
  import opened Basics

  predicate IsDigit(ch: char) {
    '0' <= ch <= '9'
  }

  predicate AllDigits(s: string) {
    forall i :: 0 <= i < |s| ==> IsDigit(s[i])
  }

  function DigitChar(d: nat): (ch: char)
    requires d < 10
    ensures IsDigit(ch)
  {
    ('0' as int + d) as char
  }

  function DigitValue(ch: char): (d: nat)
    requires IsDigit(ch)
    ensures d < 10
  {
    ch as int - '0' as int
  }

  /** Decimal digits of `n`, most significant first, without leading zeros. */
  function NatToDecimal(n: nat): (s: string)
    ensures |s| > 0 && AllDigits(s)
    ensures s[0] == '0' <==> n == 0
    ensures |s| == 1 <==> n < 10
    decreases n
  {
    if n < 10 then [DigitChar(n)] else NatToDecimal(n / 10) + [DigitChar(n % 10)]
  }

  /** The number a string of decimal digits denotes. */
  function DecimalValue(s: string): nat
    requires AllDigits(s)
    decreases |s|
  {
    if |s| == 0 then 0 else DecimalValue(s[..|s| - 1]) * 10 + DigitValue(s[|s| - 1])
  }

  /** Reading the digits back gives the number. */
  lemma {:induction false} DecimalRoundTrip(n: nat)
    ensures DecimalValue(NatToDecimal(n)) == n
    decreases n
  {
    var s := NatToDecimal(n);
    if n < 10 {
      assert s[..|s| - 1] == [];
    } else {
      DecimalRoundTrip(n / 10);
      assert s[..|s| - 1] == NatToDecimal(n / 10);
    }
  }

  /** The unsigned form `toFixed(2)` produces for an amount in whole
      hundredths: decimal digits, a point and exactly two digits, with no
      leading zero unless the units are 0. */
  predicate CanonicalUnsigned(s: string) {
    && |s| >= 4 && s[|s| - 3] == '.'
    && AllDigits(s[..|s| - 3]) && AllDigits(s[|s| - 2..])
    && (s[0] != '0' || |s| == 4)
  }

  /** The signed form `toFixed(2)` produces for an amount in whole
      hundredths: a canonical unsigned form, preceded by a minus sign only
      when the amount is not zero. (A floating-point total just below zero
      renders as `-0.00`; amounts here are exact.) */
  predicate CanonicalCents(s: string) {
    if |s| > 0 && s[0] == '-' then CanonicalUnsigned(s[1..]) && s[1..] != "0.00"
    else CanonicalUnsigned(s)
  }

  /** A non-negative amount of hundredths as `<units>.<two digits>`. */
  function FormatUnsigned(a: nat): (s: string)
    ensures CanonicalUnsigned(s)
    ensures s[0] == '0' <==> a < 100
    ensures s == "0.00" <==> a == 0
  {
    var u := NatToDecimal(a / 100);
    var s := u + "." + [DigitChar(a % 100 / 10), DigitChar(a % 100 % 10)];
    assert s[..|s| - 3] == u && s[0] == u[0];
    s
  }

  /** `amount.toFixed(2)` for an amount of `c` hundredths. */
  function FormatCents(c: int): (s: string)
    ensures CanonicalCents(s)
    ensures s[0] == '-' <==> c < 0
  {
    if c < 0 then
      var u := FormatUnsigned(-c);
      assert ("-" + u)[1..] == u;
      "-" + u
    else FormatUnsigned(c)
  }

  /** Reads `<digits>.<two digits>` back into hundredths. */
  function ParseUnsigned(s: string): Option<nat> {
    if |s| >= 4 && s[|s| - 3] == '.' && AllDigits(s[..|s| - 3]) && AllDigits(s[|s| - 2..]) then
      Some(DecimalValue(s[..|s| - 3]) * 100 + DecimalValue(s[|s| - 2..]))
    else None
  }

  /** Reads an optionally negative two-decimal amount back into hundredths. */
  function ParseCents(s: string): Option<int> {
    if |s| > 0 && s[0] == '-' then
      match ParseUnsigned(s[1..])
      case Some(v) => Some(-(v as int))
      case None => None
    else
      match ParseUnsigned(s)
      case Some(v) => Some(v)
      case None => None
  }

  /** Two digit characters denote their two-digit number. */
  lemma TwoDigitValue(d1: nat, d2: nat)
    requires d1 < 10 && d2 < 10
    ensures DecimalValue([DigitChar(d1), DigitChar(d2)]) == d1 * 10 + d2
  {
    var t := [DigitChar(d1), DigitChar(d2)];
    assert t[..|t| - 1] == [DigitChar(d1)];
    assert [DigitChar(d1)][..0] == [];
    assert DecimalValue([DigitChar(d1)]) == DigitValue(DigitChar(d1)) == d1;
    assert DecimalValue(t) == DecimalValue(t[..|t| - 1]) * 10 + DigitValue(t[1]);
  }

  /** The fixed-point rendering loses nothing: parsing it gives the amount back. */
  lemma UnsignedRoundTrip(a: nat)
    ensures ParseUnsigned(FormatUnsigned(a)) == Some(a)
  {
    var s := FormatUnsigned(a);
    var h := a % 100;
    var tail := [DigitChar(h / 10), DigitChar(h % 10)];
    assert s[..|s| - 3] == NatToDecimal(a / 100);
    assert s[|s| - 2..] == tail;
    DecimalRoundTrip(a / 100);
    TwoDigitValue(h / 10, h % 10);
  }

  /** A minus sign negates what follows it. */
  lemma ParseNegated(u: string, v: nat)
    requires ParseUnsigned(u) == Some(v)
    ensures ParseCents("-" + u) == Some(-(v as int))
  {
    assert ("-" + u)[1..] == u;
  }

  /** Without a sign, a signed read is the unsigned one. */
  lemma ParseUnsignedAsCents(u: string, v: nat)
    requires ParseUnsigned(u) == Some(v) && u[0] != '-'
    ensures ParseCents(u) == Some(v as int)
  {
  }

  /** Round trip for signed amounts. */
  lemma FormatParseRoundTrip(c: int)
    ensures ParseCents(FormatCents(c)) == Some(c)
  {
    if c < 0 {
      UnsignedRoundTrip(-c);
      ParseNegated(FormatUnsigned(-c), -c);
    } else {
      UnsignedRoundTrip(c);
      ParseUnsignedAsCents(FormatUnsigned(c), c);
    }
  }

  /** Worked example: a total of 150 units renders as `150.00`. */
  lemma FormatExample()
    ensures FormatCents(15000) == "150.00"
  {
    assert NatToDecimal(150) == NatToDecimal(15) + ['0'];
    assert NatToDecimal(15) == ['1', '5'];
  }

  /** A digit string without a leading zero is the rendering of its value. */
  lemma {:induction false} DecimalCanonical(t: string)
    requires |t| > 0 && AllDigits(t) && (|t| == 1 || t[0] != '0')
    ensures NatToDecimal(DecimalValue(t)) == t
    decreases |t|
  {
    var p := t[..|t| - 1];
    var d := DigitValue(t[|t| - 1]);
    assert DigitChar(d) == t[|t| - 1];
    if |t| == 1 {
      assert p == [];
      assert t == [DigitChar(d)];
    } else {
      assert p[0] == t[0];
      DecimalCanonical(p);
      assert DecimalValue(p) != 0;
      var v := DecimalValue(t);
      assert v / 10 == DecimalValue(p) && v % 10 == d;
      assert t == p + [t[|t| - 1]];
    }
  }

  /** The canonical unsigned form is unique: a canonical string is the
      rendering of the amount it parses to. */
  lemma UnsignedCanonical(s: string)
    requires CanonicalUnsigned(s)
    ensures ParseUnsigned(s).Some? && FormatUnsigned(ParseUnsigned(s).value) == s
  {
    var t := s[..|s| - 3];
    var d1, d2 := DigitValue(s[|s| - 2]), DigitValue(s[|s| - 1]);
    assert t[0] == s[0];
    DecimalCanonical(t);
    assert s[|s| - 2..] == [DigitChar(d1), DigitChar(d2)];
    TwoDigitValue(d1, d2);
    var a := DecimalValue(t) * 100 + d1 * 10 + d2;
    assert ParseUnsigned(s) == Some(a);
    assert a / 100 == DecimalValue(t) && a % 100 / 10 == d1 && a % 100 % 10 == d2;
    assert s == t + "." + [DigitChar(d1), DigitChar(d2)];
  }

  /** The canonical signed form is unique: every string of the shape
      `toFixed(2)` produces parses, and formatting the parsed amount gives the
      same string back. With `FormatParseRoundTrip`, formatting and parsing
      are inverse bijections between amounts and canonical strings. */
  lemma CentsCanonical(s: string)
    requires CanonicalCents(s)
    ensures ParseCents(s).Some? && FormatCents(ParseCents(s).value) == s
  {
    if |s| > 0 && s[0] == '-' {
      var u := s[1..];
      UnsignedCanonical(u);
      var v := ParseUnsigned(u).value;
      assert FormatUnsigned(v) == u != "0.00";
      assert v > 0;
      assert ParseCents(s) == Some(-(v as int));
      assert ("-" + u)[1..] == u;
      assert s == "-" + u;
    } else {
      UnsignedCanonical(s);
      var v := ParseUnsigned(s).value;
      assert ParseCents(s) == Some(v as int);
    }
  }

  /** For amounts in whole hundredths, a leading zero before a non-zero
      units digit and a signed zero are not forms `toFixed(2)` produces. */
  lemma NonCanonicalExamples()
    ensures !CanonicalCents("0150.00")
    ensures !CanonicalCents("-0.00")
    ensures CanonicalCents("0.05") && CanonicalCents("-150.00")
  {
    assert "-0.00"[1..] == "0.00";
    assert "-150.00"[1..] == "150.00";
    assert "-150.00"[1..][..3] == "150";
  }
}

=== FILE: pipeline.dfy ===
/** One processing run of `processTransactions`, with the transactions table
    modelled as a sequence of rows: the table is cleared by its own statement,
    the CSV is parsed, every record is classified, and the batch is inserted
    inside one database transaction that rolls back on error. */
module Pipeline {
  import opened Basics
  import opened Seqs
  import opened Records
  import opened Matcher

  /** The transactions table, rows in insertion order. */
  datatype Store = Store(rows: seq<ClassifiedRecord>)

  /** Why a run failed. */
  datatype Failure =
    | ClearFailed       // the `DELETE FROM transactions` statement threw
    | ParseFailed       // the CSV stream emitted `error`
    | ConnectFailed     // no client could be taken from the pool
    | InsertFailed(index: nat)
    | CommitFailed

  /** Where, if anywhere, the database fails inside `saveTransactions`.
      `InsertFails(i)` with `i` past the end of the batch never fires. */
  datatype SaveFault = NoFault | ConnectFails | InsertFails(index: nat) | CommitFails

  /** The database's behaviour during one run: whether the clear fails, and
      where the insert transaction fails. */
  datatype DbFaults = DbFaults(clearFails: bool, save: SaveFault)

  /** The counts returned by a successful run. */
  datatype RunResult = RunResult(totalProcessed: nat, classified: nat, unclassified: nat)

  /** A run's effect on the table together with its result or error. */
  datatype RunOutcome = RunOutcome(store: Store, result: Result<RunResult, Failure>)

  predicate IsClassified(r: ClassifiedRecord) { r.isClassified }

  predicate IsUnclassified(r: ClassifiedRecord) { !r.isClassified }

  /** The insert transaction commits with this fault and a batch of `n` rows. */
  predicate Commits(fault: SaveFault, n: nat) {
    fault.NoFault? || (fault.InsertFails? && fault.index >= n)
  }

  /** `classifyTransactions` over the whole batch. */
  function ClassifyAll(ts: seq<Transaction>, rules: RuleBook): (rs: seq<ClassifiedRecord>)
    ensures |rs| == |ts|
    ensures forall i :: 0 <= i < |ts| ==> rs[i].txn == ts[i]
    ensures forall i :: 0 <= i < |ts| ==> rs[i] == ClassifyRecord(ts[i], rules)
  {
    seq(|ts|, i requires 0 <= i < |ts| => ClassifyRecord(ts[i], rules))
  }

  /** The counting at the end of `processTransactions`. */
  function Summarize(saved: seq<ClassifiedRecord>): (r: RunResult)
    ensures r.classified + r.unclassified == r.totalProcessed == |saved|
    ensures r.classified == |Filter(saved, IsClassified)|
  {
    FilterPartition(saved, IsClassified, IsUnclassified);
    RunResult(|saved|, |Filter(saved, IsClassified)|, |Filter(saved, IsUnclassified)|)
  }

  /** `clearExistingTransactions`: `DELETE FROM transactions`, committed on its own. */
  function Clear(store: Store, fails: bool): (r: Result<Store, Failure>)
    ensures r.Ok? <==> !fails
    ensures r.Ok? ==> r.value.rows == []
  {
    if fails then Err(ClearFailed) else Ok(Store([]))
  }

  /** The insert loop between BEGIN and COMMIT: `pending` is the table as the
      open transaction sees it, `returned` the rows collected from `RETURNING *`. */
  function InsertLoop(store: Store, pending: seq<ClassifiedRecord>, returned: seq<ClassifiedRecord>,
                      batch: seq<ClassifiedRecord>, i: nat, fault: SaveFault): (r: (Store, Result<seq<ClassifiedRecord>, Failure>))
    requires i <= |batch|
    requires pending == store.rows + batch[..i] && returned == batch[..i]
    requires !fault.ConnectFails? && !(fault.InsertFails? && fault.index < i)
    ensures r.1.Ok? <==> Commits(fault, |batch|)
    ensures r.1.Ok? ==> r.0.rows == store.rows + batch && r.1.value == batch
    ensures r.1.Err? ==> r.0 == store
    decreases |batch| - i
  {
    if i == |batch| then
      assert batch[..i] == batch;
      if fault.CommitFails? then (store, Err(CommitFailed)) else (Store(pending), Ok(returned))
    else if fault == InsertFails(i) then
      (store, Err(InsertFailed(i)))
    else
      assert batch[..i + 1] == batch[..i] + [batch[i]];
      InsertLoop(store, pending + [batch[i]], returned + [batch[i]], batch, i + 1, fault)
  }

  /** `saveTransactions`: all rows of the batch are added on commit; on any
      failure the transaction is rolled back and the table is as before. */
  function SaveTransactions(store: Store, batch: seq<ClassifiedRecord>, fault: SaveFault): (r: (Store, Result<seq<ClassifiedRecord>, Failure>))
    ensures r.1.Ok? <==> Commits(fault, |batch|)
    ensures r.1.Ok? ==> r.0.rows == store.rows + batch && r.1.value == batch
    ensures r.1.Err? ==> r.0 == store
  {
    if fault.ConnectFails? then (store, Err(ConnectFailed))
    else InsertLoop(store, store.rows, [], batch, 0, fault)
  }

  /** `processTransactions`: clear, parse, classify, save, count. `csv` is the
      outcome of parsing the file (None when the stream failed). */
  function ProcessRun(store: Store, csv: Option<seq<RawRow>>, rules: RuleBook, faults: DbFaults): (o: RunOutcome)
    ensures faults.clearFails ==> o == RunOutcome(store, Err(ClearFailed))
    ensures o.result.Ok? <==> !faults.clearFails && csv.Some? && Commits(faults.save, |csv.value|)
    ensures o.result.Ok? ==> o.store.rows == ClassifyAll(ParseRows(csv.value), rules)
    ensures o.result.Ok? ==> o.result.value.totalProcessed == |csv.value|
    ensures o.result.Ok? ==> o.result.value.classified + o.result.value.unclassified == o.result.value.totalProcessed
    ensures o.result.Ok? ==> o.result.value.classified == |Filter(o.store.rows, IsClassified)|
    ensures !faults.clearFails && o.result.Err? ==> o.store.rows == []
  {
    match Clear(store, faults.clearFails)
    case Err(e) => RunOutcome(store, Err(e))
    case Ok(cleared) =>
      match csv
      case None => RunOutcome(cleared, Err(ParseFailed))
      case Some(rows) =>
        var batch := ClassifyAll(ParseRows(rows), rules);
        var (after, saved) := SaveTransactions(cleared, batch, faults.save);
        match saved
        case Err(e) => RunOutcome(after, Err(e))
        case Ok(inserted) => RunOutcome(after, Ok(Summarize(inserted)))
  }

  /** A run that fails after the clear loses the previous contents of the
      table: the store is left empty, not restored, because the delete was
      committed before the insert transaction began. */
  lemma FailedRunLosesSnapshot(store: Store, csv: Option<seq<RawRow>>, rules: RuleBook, faults: DbFaults)
    requires store.rows != []
    requires !faults.clearFails
    requires csv.None? || !Commits(faults.save, |csv.value|)
    ensures ProcessRun(store, csv, rules, faults).result.Err?
    ensures ProcessRun(store, csv, rules, faults).store != store
  {
  }

  /** The only failure that leaves the table untouched is a failing clear. */
  lemma UnchangedOnlyWhenClearFails(store: Store, csv: Option<seq<RawRow>>, rules: RuleBook, faults: DbFaults)
    requires store.rows != []
    requires ProcessRun(store, csv, rules, faults).result.Err?
    ensures ProcessRun(store, csv, rules, faults).store == store <==> faults.clearFails
  {
  }

  /** A successful run replaces the whole table: what was there before has no
      influence on the new contents or on the counts. Running the same input
      twice therefore yields the same counts and the same table. */
  lemma RunIgnoresPriorStore(s1: Store, s2: Store, csv: Option<seq<RawRow>>, rules: RuleBook, faults: DbFaults)
    requires !faults.clearFails
    ensures ProcessRun(s1, csv, rules, faults) == ProcessRun(s2, csv, rules, faults)
  {
  }

  /** A CSV with a header and no data rows empties the table and reports zeros. */
  lemma HeaderOnlyRun(store: Store, rules: RuleBook)
    ensures ProcessRun(store, Some([]), rules, DbFaults(false, NoFault))
         == RunOutcome(Store([]), Ok(RunResult(0, 0, 0)))
  {
    assert Filter([], IsClassified) == [];
  }

  /** The record invariant: `is_classified` holds iff both ids are set. */
  predicate Consistent(r: ClassifiedRecord) {
    r.isClassified <==> r.companyId.Some? && r.categoryId.Some?
  }

  /** Every row of the table keeps the record invariant. */
  predicate ConsistentStore(store: Store) {
    forall i :: 0 <= i < |store.rows| ==> Consistent(store.rows[i])
  }

  /** A run keeps the table consistent when every id is present in the rule book. */
  lemma {:induction false} RunKeepsStoreConsistent(store: Store, csv: Option<seq<RawRow>>, rules: RuleBook, faults: DbFaults)
    requires WellFormed(rules) && ConsistentStore(store)
    ensures ConsistentStore(ProcessRun(store, csv, rules, faults).store)
  {
    var o := ProcessRun(store, csv, rules, faults);
    if o.result.Ok? {
      var ts := ParseRows(csv.value);
      forall i | 0 <= i < |o.store.rows|
        ensures Consistent(o.store.rows[i])
      {
        ClassifiedIffIdsSet(ts[i], rules);
      }
    }
  }
}

=== FILE: queries.dfy ===
/** The two read paths of the service, `getRecordsByCompany` and
    `getUnclassifiedRecords`: a `WHERE` filter over the table followed by
    `ORDER BY transaction_date DESC`. SQL leaves the order of equal dates
    open, so a query answer is any arrangement of the selected rows whose
    dates do not increase; `SortByDateDesc` produces one such arrangement. */
module Queries {
  import opened Basics
  import opened Seqs
  import opened Records
  import opened Matcher
  import opened Pipeline

  /** Dates never increase along `rs`. */
  predicate SortedByDateDesc(rs: seq<ClassifiedRecord>) {
    forall i, j :: 0 <= i < j < |rs| ==> rs[i].txn.date >= rs[j].txn.date
  }

  /** Places `x` before the first row that is not later than it. */
  function InsertByDate(x: ClassifiedRecord, rs: seq<ClassifiedRecord>): (r: seq<ClassifiedRecord>)
    requires SortedByDateDesc(rs)
    ensures SortedByDateDesc(r)
    ensures multiset(r) == multiset(rs) + multiset{x}
    ensures |r| == |rs| + 1
    ensures r[0] == x || (|rs| > 0 && r[0] == rs[0])
  {
    if |rs| == 0 || rs[0].txn.date <= x.txn.date then
      assert forall j :: 0 <= j < |rs| ==> rs[j].txn.date <= x.txn.date;
      [x] + rs
    else
      assert rs == [rs[0]] + rs[1..];
      var tail := InsertByDate(x, rs[1..]);
      assert tail[0].txn.date <= rs[0].txn.date;
      [rs[0]] + tail
  }

  /** Insertion sort by date, latest first. */
  function SortByDateDesc(rs: seq<ClassifiedRecord>): (r: seq<ClassifiedRecord>)
    ensures SortedByDateDesc(r)
    ensures multiset(r) == multiset(rs)
  {
    if |rs| == 0 then []
    else
      assert rs == [rs[0]] + rs[1..];
      InsertByDate(rs[0], SortByDateDesc(rs[1..]))
  }

  /** `WHERE t.company_id = $1`: a NULL company id never equals the parameter. */
  function OfCompany(id: Id): ClassifiedRecord -> bool {
    (r: ClassifiedRecord) => r.companyId == Some(id)
  }

  /** `WHERE t.is_classified = false OR t.company_id IS NULL`. */
  predicate Unlisted(r: ClassifiedRecord) {
    !r.isClassified || r.companyId.None?
  }

  /** `getRecordsByCompany`: the rows of one company, latest first. */
  function RecordsByCompany(store: Store, id: Id): (rs: seq<ClassifiedRecord>)
    ensures SortedByDateDesc(rs)
    ensures forall r :: multiset(rs)[r] == if r.companyId == Some(id) then multiset(store.rows)[r] else 0
    ensures forall i :: 0 <= i < |rs| ==> rs[i].companyId == Some(id) && rs[i] in store.rows
  {
    SortByDateDesc(Filter(store.rows, OfCompany(id)))
  }

  /** `getUnclassifiedRecords`: the unclassified rows and the rows without a
      company, latest first. */
  function UnclassifiedRecords(store: Store): (rs: seq<ClassifiedRecord>)
    ensures SortedByDateDesc(rs)
    ensures forall r :: multiset(rs)[r] == if Unlisted(r) then multiset(store.rows)[r] else 0
    ensures forall i :: 0 <= i < |rs| ==> Unlisted(rs[i]) && rs[i] in store.rows
  {
    SortByDateDesc(Filter(store.rows, Unlisted))
  }

  /** In a consistent table the two conditions of the unclassified query
      coincide: a row lacks a company exactly when its flag is unset, so the
      query returns the rows whose flag is unset. */
  lemma UnclassifiedMeansFlagUnset(store: Store)
    requires ConsistentStore(store)
    ensures multiset(UnclassifiedRecords(store)) == multiset(Filter(store.rows, IsUnclassified))
  {
    assert forall i :: 0 <= i < |store.rows| ==> Consistent(store.rows[i]);
    FilterCongruent(store.rows, Unlisted, IsUnclassified);
    var q := UnclassifiedRecords(store);
    var f := Filter(store.rows, Unlisted);
    assert forall r :: multiset(q)[r] == multiset(f)[r];
    assert multiset(q) == multiset(f);
  }

  /** Without a consistent table the two differ: a row written for a company
      that has no id in the rule book is flagged as classified and is still
      listed among the unclassified rows. */
  lemma ClassifiedRowWithoutCompanyIsListed()
    ensures var r := ClassifiedRecord(Transaction(0, "COFFEE", 0, 0, None, ""), None, Some("c1"), true);
      r.isClassified && r in UnclassifiedRecords(Store([r]))
  {
    var r := ClassifiedRecord(Transaction(0, "COFFEE", 0, 0, None, ""), None, Some("c1"), true);
    var q := UnclassifiedRecords(Store([r]));
    assert multiset([r])[r] == 1;
    assert multiset(q)[r] == 1;
  }

  /** Every company of the rule book carries a `company_id`. */
  predicate CompanyIdsPresent(rules: RuleBook) {
    forall c :: 0 <= c < |rules.companies| ==> rules.companies[c].companyId.Some?
  }

  /** The unclassified query never looks at the category id: when every
      company has an id, a classified record is listed exactly when its flag
      is unset, whatever its category ids. */
  lemma ListedIffFlagUnset(t: Transaction, rules: RuleBook)
    requires CompanyIdsPresent(rules)
    ensures Unlisted(ClassifyRecord(t, rules)) <==> !ClassifyRecord(t, rules).isClassified
  {
  }

  /** A category without a `category_id` gives a flagged row whose category
      id is NULL, and the unclassified query does not list it. */
  lemma MissingCategoryIdNotListed()
    ensures var rules := RuleBook([Company(Some("E1"), [Category(None, ["COFFEE"])])]);
      var r := ClassifyRecord(Transaction(0, "COFFEE", 0, 0, None, ""), rules);
      && r.isClassified && r.categoryId.None? && !Consistent(r)
      && r !in UnclassifiedRecords(Store([r]))
  {
    var rules := RuleBook([Company(Some("E1"), [Category(None, ["COFFEE"])])]);
    assert "COFFEE"[..6] == "COFFEE";
    assert Includes("COFFEE", rules.companies[0].categories[0].keywords[0]);
    assert PairMatches("COFFEE", rules, 0, 0);
  }

  /** Round trip: after a successful run, the rows a company query returns are
      exactly the classified records of the batch that carry that company id,
      each as often as in the batch, latest first. */
  lemma RoundTripByCompany(store: Store, csv: Option<seq<RawRow>>, rules: RuleBook, faults: DbFaults, id: Id)
    requires ProcessRun(store, csv, rules, faults).result.Ok?
    ensures var batch := ClassifyAll(ParseRows(csv.value), rules);
      var rs := RecordsByCompany(ProcessRun(store, csv, rules, faults).store, id);
      && SortedByDateDesc(rs)
      && multiset(rs) == multiset(Filter(batch, OfCompany(id)))
  {
    var batch := ClassifyAll(ParseRows(csv.value), rules);
    var rs := RecordsByCompany(ProcessRun(store, csv, rules, faults).store, id);
    var f := Filter(batch, OfCompany(id));
    assert forall r :: multiset(rs)[r] == multiset(f)[r];
    assert multiset(rs) == multiset(f);
  }

  /** The first matching pair of `description` belongs to a company whose id is `id`. */
  ghost predicate FirstMatchIn(description: string, rules: RuleBook, id: Id) {
    exists c: nat, k: nat :: IsFirstMatch(description, rules, Hit(c, k)) && rules.companies[c].companyId == Some(id)
  }

  /** A record the classifier gave a company id was matched by a rule of a
      company with that id. */
  lemma MatchedRecordOfCompany(t: Transaction, rules: RuleBook, id: Id)
    requires ClassifyRecord(t, rules).companyId == Some(id)
    ensures ClassifyRecord(t, rules).isClassified
    ensures FirstMatchIn(t.description, rules, id)
  {
  }

  /** Every row a company query returns from a classified batch was
      classified into that company by a rule: the flag is set, and the first
      matching pair of its description belongs to a company with that id. */
  lemma {:induction false} CompanyRowsWereMatched(ts: seq<Transaction>, rules: RuleBook, id: Id)
    ensures var rs := RecordsByCompany(Store(ClassifyAll(ts, rules)), id);
      forall i :: 0 <= i < |rs| ==> rs[i].isClassified && FirstMatchIn(rs[i].txn.description, rules, id)
  {
    var rows := ClassifyAll(ts, rules);
    var rs := RecordsByCompany(Store(rows), id);
    forall i | 0 <= i < |rs|
      ensures rs[i].isClassified && FirstMatchIn(rs[i].txn.description, rules, id)
    {
      var j :| 0 <= j < |rows| && rows[j] == rs[i];
      MatchedRecordOfCompany(ts[j], rules, id);
    }
  }
}

=== FILE: records.dfy ===
/** Transaction records as `parseCSV` builds them and as `classifyTransactions`
    decorates them. */
module Records {
  import opened Basics

  /** One CSV data row after the CSV library and the field conversions of
      `parseCSV`: the timestamp already converted, each numeric column as the
      result of `parseFloat` (None when that is `NaN`). */
  datatype RawRow = RawRow(
    date: Timestamp,
    description: string,
    deposit: Option<int>,
    withdrawal: Option<int>,
    balance: Option<int>,
    branch: string)

  /** A parsed transaction. Amounts are integer minor units. */
  datatype Transaction = Transaction(
    date: Timestamp,
    description: string,
    deposit: int,
    withdrawal: int,
    balance: Option<int>,
    branch: string)

  /** A transaction decorated by the classifier: every original field is kept
      in `txn`, and the classifier adds the two ids and the flag. */
  datatype ClassifiedRecord = ClassifiedRecord(
    txn: Transaction,
    companyId: Option<Id>,
    categoryId: Option<Id>,
    isClassified: bool)

  /** The lenient numeric policy of `parseCSV`: `parseFloat(x) || 0` for the two
      amounts, a bare `parseFloat` for the balance. */
  function ParseRow(row: RawRow): (t: Transaction)
    ensures row.deposit.None? ==> t.deposit == 0
    ensures row.withdrawal.None? ==> t.withdrawal == 0
    ensures row.deposit.Some? ==> t.deposit == row.deposit.value
    ensures row.withdrawal.Some? ==> t.withdrawal == row.withdrawal.value
    ensures t.balance == row.balance
    ensures t.date == row.date && t.description == row.description && t.branch == row.branch
  {
    Transaction(row.date, row.description, row.deposit.GetOr(0), row.withdrawal.GetOr(0), row.balance, row.branch)
  }

  /** Every data row becomes one transaction, in file order. */
  function ParseRows(rows: seq<RawRow>): (ts: seq<Transaction>)
    ensures |ts| == |rows|
    ensures forall i :: 0 <= i < |rows| ==> ts[i] == ParseRow(rows[i])
  {
    seq(|rows|, i requires 0 <= i < |rows| => ParseRow(rows[i]))
  }

  /** An unparseable balance stays unparseable, while unparseable amounts
      become zero: the default applies to the amounts only. */
  lemma BalanceHasNoDefault(row: RawRow)
    requires row.balance.None? && row.deposit.None? && row.withdrawal.None?
    ensures ParseRow(row).balance.None?
    ensures ParseRow(row).deposit == 0 && ParseRow(row).withdrawal == 0
  {
  }
}

=== FILE: routes.dfy ===
/** The decisions the accounting routes make around the service: which
    uploads are accepted, which requests are refused before the service is
    called, and the statistics of the records query. */
module Routes {
  import opened Basics
  import opened Seqs
  import opened Records
  import opened Matcher
  import opened Pipeline
  import opened Queries
  import opened Money

  /** One uploaded file as the upload middleware describes it. */
  datatype Upload = Upload(fieldname: string, mimetype: string, originalname: string)

  /** `s.endsWith(suffix)`. */
  predicate EndsWith(s: string, suffix: string) {
    |suffix| <= |s| && s[|s| - |suffix|..] == suffix
  }

  /** The upload `fileFilter`: a CSV under `csvFile`, a JSON document under
      `rulesFile`, each recognised by its media type or by its name. */
  function AcceptUpload(u: Upload): (ok: bool)
    ensures u.fieldname == "csvFile" ==> (ok <==> u.mimetype == "text/csv" || EndsWith(u.originalname, ".csv"))
    ensures u.fieldname == "rulesFile" ==> (ok <==> u.mimetype == "application/json" || EndsWith(u.originalname, ".json"))
    ensures u.fieldname != "csvFile" && u.fieldname != "rulesFile" ==> !ok
  {
    if u.fieldname == "csvFile" && (u.mimetype == "text/csv" || EndsWith(u.originalname, ".csv")) then true
    else if u.fieldname == "rulesFile" && (u.mimetype == "application/json" || EndsWith(u.originalname, ".json")) then true
    else false
  }

  /** A file's name does not carry it across fields: a JSON rules document
      sent as `csvFile` is refused, and so is a CSV under any unknown field. */
  lemma UploadFieldDecides()
    ensures !AcceptUpload(Upload("csvFile", "application/json", "rules.json"))
    ensures !AcceptUpload(Upload("rulesFile", "text/csv", "bank.csv"))
    ensures !AcceptUpload(Upload("file", "text/csv", "bank.csv"))
  {
  }

  /** Some upload was sent under `field`. */
  predicate HasField(uploads: seq<Upload>, field: string) {
    exists i :: 0 <= i < |uploads| && uploads[i].fieldname == field
  }

  /** Every upload passed the filter. */
  predicate AllAccepted(uploads: seq<Upload>) {
    forall i :: 0 <= i < |uploads| ==> AcceptUpload(uploads[i])
  }

  /** A `POST /process` request: the uploads, the outcome of `JSON.parse` on the
      rules file (None when it threw) and the outcome of parsing the CSV. */
  datatype ProcessRequest = ProcessRequest(uploads: seq<Upload>, rules: Option<RuleBook>, csv: Option<seq<RawRow>>)

  /** The answer to `POST /process`. */
  datatype ProcessResponse =
    | UploadRejected                       // the filter's error reaches the application's error handler
    | MissingFiles                         // 400: a CSV file and a rules file are both required
    | BadRules                             // 400: the rules file is not valid JSON
    | ProcessingFailed(cause: Failure)     // 500
    | Processed(data: RunResult)           // 200

  /** `POST /process`: filter the uploads, check both files are there, parse
      the rules, run the service. */
  function HandleProcess(store: Store, req: ProcessRequest, faults: DbFaults): (r: (ProcessResponse, Store))
    ensures r.0.UploadRejected? <==> !AllAccepted(req.uploads)
    ensures r.0.MissingFiles? <==>
      AllAccepted(req.uploads) && !(HasField(req.uploads, "csvFile") && HasField(req.uploads, "rulesFile"))
    ensures r.0.BadRules? <==>
      AllAccepted(req.uploads) && HasField(req.uploads, "csvFile") && HasField(req.uploads, "rulesFile") && req.rules.None?
    ensures r.0.UploadRejected? || r.0.MissingFiles? || r.0.BadRules? ==> r.1 == store
    ensures r.0.Processed? || r.0.ProcessingFailed? ==>
      req.rules.Some? && r.1 == ProcessRun(store, req.csv, req.rules.value, faults).store
    ensures r.0.Processed? ==> ProcessRun(store, req.csv, req.rules.value, faults).result == Ok(r.0.data)
    ensures r.0.ProcessingFailed? ==> ProcessRun(store, req.csv, req.rules.value, faults).result == Err(r.0.cause)
  {
    if !AllAccepted(req.uploads) then (UploadRejected, store)
    else if !HasField(req.uploads, "csvFile") || !HasField(req.uploads, "rulesFile") then (MissingFiles, store)
    else match req.rules
      case None => (BadRules, store)
      case Some(rules) =>
        var o := ProcessRun(store, req.csv, rules, faults);
        match o.result
        case Ok(data) => (Processed(data), o.store)
        case Err(e) => (ProcessingFailed(e), o.store)
  }

  /** The amount a record contributes to the total: deposit plus withdrawal. */
  function RecordAmount(r: ClassifiedRecord): int {
    r.txn.deposit + r.txn.withdrawal
  }

  /** Sum of deposit plus withdrawal over the records. */
  function Amount(rs: seq<ClassifiedRecord>): int {
    if |rs| == 0 then 0 else RecordAmount(rs[0]) + Amount(rs[1..])
  }

  /** The sum splits over concatenation. */
  lemma {:induction false} AmountAppend(a: seq<ClassifiedRecord>, b: seq<ClassifiedRecord>)
    ensures Amount(a + b) == Amount(a) + Amount(b)
  {
    if |a| > 0 {
      assert (a + b)[1..] == a[1..] + b;
      AmountAppend(a[1..], b);
    } else {
      assert a + b == b;
    }
  }

  /** Taking one record out of the sum. */
  lemma AmountRemove(b: seq<ClassifiedRecord>, j: nat)
    requires j < |b|
    ensures Amount(b) == RecordAmount(b[j]) + Amount(b[..j] + b[j + 1..])
  {
    var rest := [b[j]] + b[j + 1..];
    assert b == b[..j] + rest;
    AmountAppend(b[..j], rest);
    AmountAppend(b[..j], b[j + 1..]);
    assert rest[0] == b[j] && rest[1..] == b[j + 1..];
    assert Amount(rest) == RecordAmount(b[j]) + Amount(b[j + 1..]);
  }

  /** Taking one record out of the multiset. */
  lemma MultisetRemove(b: seq<ClassifiedRecord>, j: nat)
    requires j < |b|
    ensures multiset(b[..j] + b[j + 1..]) == multiset(b) - multiset{b[j]}
  {
    assert b == b[..j] + [b[j]] + b[j + 1..];
  }

  /** The sum does not depend on the order of the records. */
  lemma {:induction false} AmountPermutation(a: seq<ClassifiedRecord>, b: seq<ClassifiedRecord>)
    requires multiset(a) == multiset(b)
    ensures Amount(a) == Amount(b)
    decreases |a|
  {
    if |a| == 0 {
      assert |b| == |multiset(b)| == 0;
    } else {
      var x := a[0];
      assert a == [x] + a[1..];
      assert x in multiset(b);
      var j :| 0 <= j < |b| && b[j] == x;
      AmountRemove(b, j);
      MultisetRemove(b, j);
      AmountPermutation(a[1..], b[..j] + b[j + 1..]);
    }
  }

  /** The `reduce` of the records route: a running sum from the first record to the last. */
  method TotalAmount(records: seq<ClassifiedRecord>) returns (total: int)
    ensures total == Amount(records)
  {
    total := 0;
    var i := 0;
    while i < |records|
      invariant 0 <= i <= |records|
      invariant total == Amount(records[..i])
    {
      AmountAppend(records[..i], [records[i]]);
      assert records[..i + 1] == records[..i] + [records[i]];
      total := total + RecordAmount(records[i]);
      i := i + 1;
    }
    assert records[..i] == records;
  }

  /** The statistics block of `GET /records`. */
  datatype Statistics = Statistics(totalRecords: nat, classifiedCount: nat, unclassifiedCount: nat, totalAmount: string)

  function ComputeStatistics(records: seq<ClassifiedRecord>): (st: Statistics)
    ensures st.totalRecords == |records|
    ensures st.classifiedCount + st.unclassifiedCount == st.totalRecords
    ensures st.classifiedCount == |Filter(records, IsClassified)|
    ensures ParseCents(st.totalAmount) == Some(Amount(records))
    ensures CanonicalCents(st.totalAmount)
  {
    FilterPartition(records, IsClassified, IsUnclassified);
    FormatParseRoundTrip(Amount(records));
    Statistics(|records|, |Filter(records, IsClassified)|, |Filter(records, IsUnclassified)|, FormatCents(Amount(records)))
  }

  /** The answer to `GET /records`. */
  datatype RecordsResponse =
    | MissingCompanyId                     // 400
    | RecordsQueryFailed                   // 500: the database query threw
    | CompanyRecords(companyId: Id, records: seq<ClassifiedRecord>, statistics: Statistics)

  /** `GET /records?companyId=...`: an absent or empty parameter is refused
      before the query runs; `queryFails` says whether the query throws. */
  function HandleRecords(store: Store, companyId: Option<string>, queryFails: bool): (r: RecordsResponse)
    ensures r.MissingCompanyId? <==> companyId.None? || companyId.value == ""
    ensures r.RecordsQueryFailed? <==> companyId.Some? && companyId.value != "" && queryFails
    ensures r.CompanyRecords? ==> companyId == Some(r.companyId)
    ensures r.CompanyRecords? ==> SortedByDateDesc(r.records)
    ensures r.CompanyRecords? ==> multiset(r.records) == multiset(Filter(store.rows, OfCompany(r.companyId)))
    ensures r.CompanyRecords? ==> r.statistics == ComputeStatistics(r.records)
  {
    match companyId
    case None => MissingCompanyId
    case Some(id) =>
      if id == "" then MissingCompanyId
      else if queryFails then RecordsQueryFailed
      else
        var records := RecordsByCompany(store, id);
        var f := Filter(store.rows, OfCompany(id));
        assert forall x :: multiset(records)[x] == multiset(f)[x];
        assert multiset(records) == multiset(f);
        CompanyRecords(id, records, ComputeStatistics(records))
  }

  /** The statistics of a company do not depend on the order the query
      returns its rows in: they are those of the company's stored rows. */
  lemma StatisticsOfCompany(store: Store, id: Id)
    requires id != ""
    ensures HandleRecords(store, Some(id), false).statistics == ComputeStatistics(Filter(store.rows, OfCompany(id)))
  {
    var f := Filter(store.rows, OfCompany(id));
    var rs := HandleRecords(store, Some(id), false).records;
    FilterPermutation(rs, f, IsClassified);
    FilterPermutation(rs, f, IsUnclassified);
    AmountPermutation(rs, f);
    assert |rs| == |multiset(rs)| == |multiset(f)| == |f|;
  }

  /** Worked example: a deposit of 100.00 and a withdrawal of 50.00 total `150.00`. */
  lemma StatisticsExample()
    ensures var r1 := ClassifiedRecord(Transaction(1, "A", 10000, 0, None, ""), Some("E1"), Some("C1"), true);
      var r2 := ClassifiedRecord(Transaction(2, "B", 0, 5000, None, ""), None, None, false);
      var st := ComputeStatistics([r1, r2]);
      st.totalAmount == "150.00" && st.classifiedCount + st.unclassifiedCount == 2
  {
    var r1 := ClassifiedRecord(Transaction(1, "A", 10000, 0, None, ""), Some("E1"), Some("C1"), true);
    var r2 := ClassifiedRecord(Transaction(2, "B", 0, 5000, None, ""), None, None, false);
    assert [r1, r2][1..] == [r2];
    assert [r2][1..] == [];
    assert Amount([r2]) == 5000;
    assert Amount([r1, r2]) == 15000;
    FormatExample();
  }

  /** The answer to `GET /unclassified`. */
  datatype UnclassifiedResponse =
    | UnclassifiedQueryFailed              // 500: the database query threw
    | Unclassified(records: seq<ClassifiedRecord>, count: nat)

  /** `GET /unclassified`: the rows and how many there are; `queryFails` says
      whether the query throws. */
  function HandleUnclassified(store: Store, queryFails: bool): (r: UnclassifiedResponse)
    ensures r.UnclassifiedQueryFailed? <==> queryFails
    ensures r.Unclassified? ==> r.count == |r.records| == |Filter(store.rows, Unlisted)|
    ensures r.Unclassified? ==> multiset(r.records) == multiset(Filter(store.rows, Unlisted))
    ensures r.Unclassified? ==> SortedByDateDesc(r.records)
  {
    if queryFails then UnclassifiedQueryFailed
    else
      var records := UnclassifiedRecords(store);
      var f := Filter(store.rows, Unlisted);
      assert forall x :: multiset(records)[x] == multiset(f)[x];
      assert multiset(records) == multiset(f);
      assert |records| == |multiset(records)| == |multiset(f)| == |f|;
      Unclassified(records, |records|)
  }
}

=== FILE: seqs.dfy ===
/** Order-preserving selection over sequences: the `Array.prototype.filter`
    and SQL `WHERE` of the service. */
module Seqs {

  /** The elements of `s` that satisfy `p`, in their original order. */
  function Filter<T(!new)>(s: seq<T>, p: T -> bool): (r: seq<T>)
    ensures |r| <= |s|
    ensures forall i :: 0 <= i < |r| ==> p(r[i])
    ensures forall x :: multiset(r)[x] == if p(x) then multiset(s)[x] else 0
  {
    if |s| == 0 then []
    else
      assert s == [s[0]] + s[1..];
      (if p(s[0]) then [s[0]] else []) + Filter(s[1..], p)
  }

  /** Selecting by a condition and by its negation splits the sequence:
      the two lengths add up to the whole. */
  lemma {:induction false} FilterPartition<T(!new)>(s: seq<T>, p: T -> bool, q: T -> bool)
    requires forall x :: q(x) == !p(x)
    ensures |Filter(s, p)| + |Filter(s, q)| == |s|
  {
    if |s| > 0 {
      FilterPartition(s[1..], p, q);
    }
  }

  /** Filtering two permutations of each other yields permutations of each other. */
  lemma {:induction false} FilterPermutation<T(!new)>(a: seq<T>, b: seq<T>, p: T -> bool)
    requires multiset(a) == multiset(b)
    ensures multiset(Filter(a, p)) == multiset(Filter(b, p))
    ensures |Filter(a, p)| == |Filter(b, p)|
  {
    var fa, fb := Filter(a, p), Filter(b, p);
    assert forall x :: multiset(fa)[x] == multiset(fb)[x];
    assert multiset(fa) == multiset(fb);
    assert |fa| == |multiset(fa)| == |multiset(fb)| == |fb|;
  }

  /** Two conditions that agree on every element select the same subsequence. */
  lemma {:induction false} FilterCongruent<T(!new)>(s: seq<T>, p: T -> bool, q: T -> bool)
    requires forall i :: 0 <= i < |s| ==> p(s[i]) == q(s[i])
    ensures Filter(s, p) == Filter(s, q)
  {
    if |s| > 0 {
      FilterCongruent(s[1..], p, q);
    }
  }
}
